=== FILE: README.md ===
# graphql-go-helpers argument loader, modelled in Dafny

This project models `args.go` of graphql-go-helpers. That file holds a
type-keyed registry of argument loader funcs (`ArgLoader`) and two walkers over
the tagged fields of a Go struct:

- **Registry** (`Empty`, `Register`, the wrapped loader closure). Two maps keyed by a
  Go type: one to a wrapped loader func, one to a GraphQL wire-type. `Register`
  checks the signature of the func it is given and refuses a second loader for a
  type. The wrapper it stores turns every panic and every returned error into a
  plain error result.
- **Built-ins** (`LoadBool`, `LoadString`, `LoadInt`, `LoadFloat`, `DefaultLoaders`, `New`).
  Each built-in is an exact type assertion. `New` registers all four on an empty
  registry and is proved to succeed.
- **Schema deriver** (`SafeArgsConfig`, `ArgsConfig`). It walks the struct's fields in
  declaration order and emits `arg name -> {wire-type or nil, desc or ""}`.
- **Populator** (`LoadArgs`). It walks the same fields in order:
  - An absent key applies the `required` policy, parsing the tag as `strconv.ParseBool` does.
  - A present key, even one holding nil, goes to the loader registered for the field's type.
  - The result is written into the field.
  - The walk stops at the first error and keeps what it has already written.

Reflection is replaced by data. `GoType` and `FieldDesc` describe types and
struct fields; `Tags` holds the `arg`/`required`/`desc` tags; `Iface` is an
`interface{}` value (nil or boxed); `Func` describes a func value by its name,
parameter types, results and behaviour (`Iface -> Outcome`, where `Outcome` is
`Ok | Err | Panic`). Calls that mutate Go state (`Register`, `LoadArgs`) return
`Updated(state, err)`.

Modules, one per component: `GoTypes`, `StrConv`, `Registry`, `Builtins`,
`Schema`, `Populate`, and `HelloExample`. `HelloExample` holds worked examples:
lemmas about the model on the `helloArgs` struct of the example program. Its examples are stated for any
registry whose `string` loader and wire-type are the built-ins, which
`NewIsStringBuiltin` shows of the registry `New` builds.

## Model

| member | source | states |
|---|---|---|
| StrConv.ParseBool | args.go:191-193 | the `required` tag parses to true exactly for 1, t, T, TRUE, true, True, to false exactly for 0, f, F, FALSE, false, False, and every other string is an error |
| Registry.Empty | args.go:44-50 | the empty registry has no key in either map and satisfies the registry invariant |
| Registry.Wrap | args.go:141-156 | the closure stored for a func calls exactly that func: through `Call` it succeeds exactly when the argument is a non-nil value assignable to the func's parameter, the error result type is nil-checkable and the func returns a nil error, and then yields the func's first result; a non-nil error the func returns is passed on unchanged as `Returned`; a nil argument, a non-assignable argument, a panic in the func (with the func's own panic description) and an error result type that cannot be nil-checked (naming that type) become `Panicked` errors under the func's name |
| Registry.Call | args.go:141-155 | a wrapped loader never panics: a nil argument, an argument of the wrong type, a panicking func and a non-nil-checkable error type all become `Panicked(fname, …)` errors, a non-nil returned error becomes that error, and only a nil error yields the func's first result |
| Registry.Register | args.go:107-158 | on a non-func, an input count other than 1, an output count other than 2, a second output that does not implement `error`, or an already registered type it returns that error (checked in that order) and leaves both maps unchanged; otherwise it adds exactly the first output type to both maps, with the wrapped func and the given wire-type, and changes no other entry |
| Registry.RegisterAddsOneKey | args.go:156-157 | on a registry whose two maps share their keys, as every registry built from `Empty` by `Register` does, a successful registration grows each map by exactly one entry |
| Registry.RegisterKeepsValid | args.go:134-157 | registration keeps the invariant: both maps have the same keys, and the loader stored under a type returns values of that type |
| Registry.DuplicateRejected | args.go:134-139 | registering a second func for a type fails with the duplicate error, and the first func and its wire-type stay registered |
| Builtins.TypeAssert | args.go:216-220 | the type assertion `i.(T)` in each built-in holds exactly for a non-nil value of dynamic type `T`, yields that value unconverted, and otherwise gives the "is not a …" error; it never panics (the same shape recurs at args.go:224, 232 and 240) |
| Builtins.LoadBool | args.go:215-221 | accepts exactly a non-nil `bool` and returns it unchanged; anything else is an "is not a bool" error; it never panics |
| Builtins.LoadString | args.go:223-229 | accepts exactly a non-nil `string` and returns it unchanged; anything else is an "is not a string" error |
| Builtins.LoadInt | args.go:231-237 | accepts exactly a non-nil `int`, and no `float64`; anything else is an "is not an int" error |
| Builtins.LoadFloat | args.go:239-245 | accepts exactly a non-nil `float64`, and no `int`; anything else is an "is not a float" error |
| Builtins.DefaultLoadersTable | args.go:20-28 | `DefaultLoaders` has four rows, for bool, string, int and float64 in that order; each row's func is a type assertion to its own result type, paired with that type's wire-type (Boolean, String, Int, Float) |
| Builtins.RegisterAll | args.go:35-41 | `New`'s loop: when it finishes without error, every row was a func, and every type registered in both maps beforehand keeps its loader and wire-type |
| Builtins.RegisterFirstRow | args.go:35-40 | one turn of the registration loop, on a row whose type is new, succeeds, adds that type, keeps every earlier entry, and leaves the remaining rows registrable |
| Builtins.RegisterAllSucceeds | args.go:33-42 | registering rows with shaped signatures and distinct, new types never errors, keeps the invariant, adds exactly the rows' types and keeps every earlier entry |
| Builtins.RegisterAllEntries | args.go:33-42 | after that loop each row's wrapped func and wire-type sit under the row's type |
| Builtins.DefaultLoadersRegistrable | args.go:20-28 | the four built-ins have the shape `Register` demands, return values of their declared types, and cover exactly bool, string, int and float64 |
| Builtins.NewSucceeds | args.go:33-42 | registering `DefaultLoaders` on an empty registry succeeds and yields the four types mapped to Boolean, String, Int and Float |
| Builtins.RegisterDefaults | args.go:33-42 | registering four shaped rows for bool, string, int and float64 on an empty valid registry succeeds and maps each type to its row's wire-type |
| Builtins.New | args.go:32-42 | `New` never errors; its registry satisfies the invariant, has exactly the four built-in types as keys, and maps them to their wire-types |
| Builtins.NewLoader | args.go:20-28 | the loader `New` stores under each scalar type is the wrapped built-in for that type |
| Builtins.DefaultLoadersExact | args.go:215-245 | through `New`'s registry, a value of exactly the field's type loads as itself, a value of any other type gives an "is not a …" error (no int/float coercion), and nil gives a `Panicked` error |
| Schema.Configs | args.go:89-101 | the keys of the derived configs are exactly the `arg` tags of the fields; untagged fields contribute nothing |
| Schema.ConfigsLastWins | args.go:97-100 | when several fields share an `arg` name, the entry is the last such field's |
| Schema.EveryKeyHasLastField | args.go:90-101 | every key comes from a field that is the last to carry that `arg` name |
| Schema.SafeArgsConfig | args.go:74-103 | errors exactly when the input is neither a struct nor a pointer to one; otherwise each entry has the registered wire-type (nil if unregistered) and the `desc` tag (or "") of the last field with that name |
| Schema.ArgsConfig | args.go:66-72 | on a struct or pointer to a struct, returns what `SafeArgsConfig` returns successfully |
| Schema.ConfigsIgnoreUntagged | args.go:92-96 | fields without an `arg` tag are not read: replacing one by another untagged field leaves the schema unchanged |
| Populate.FieldStep | args.go:176-210 | per field: untagged is skipped; an absent key stops exactly when a `required` tag is present and does not parse to false (bad tag error, or "<key> is required"); a present key never skips, stops with "no loader" for an unregistered type, stops with "cannot populate <Field>" on a loader error, and otherwise writes the loaded value |
| Populate.LoadFields | args.go:175-211 | the fold keeps the number of fields, never writes a field before its start, and never writes a field without an `arg` tag |
| Populate.LoadArgs | args.go:162-213 | a non-pointer and a pointer to a non-struct are refused with nothing changed; on a pointer to a struct the field list is kept and untagged fields are never written |
| Populate.LoadFieldsSucceeds | args.go:175-212 | the loop from a given field on ends without error exactly when no field's turn errs, and then every field holds the value its own turn gave it; when it errs, some field is the first to err |
| Populate.LoadFieldsFirstStop | args.go:175-212 | when a field is the first to err, the loop returns that field's error; the fields before it keep their turns' values, and that field and the later ones are untouched |
| Populate.LoadArgsOutcome | args.go:162-213 | the same characterisation for `LoadArgs` on a pointer to a struct: declaration order, first error aborts, no rollback |
| Populate.OptionalAbsentKept | args.go:183-190 | a tagged field whose key is absent and that is not required keeps its value, whatever else happens |
| Populate.RequiredAbsentFails | args.go:195-196 | an absent key whose `required` tag parses to true makes the call fail with "<key> is required" once all earlier fields passed; earlier fields keep what they were given, later ones are untouched |
| Populate.LoadFieldsKeepsWellTyped | args.go:201-210 | with a valid registry the fold only writes values of the field's own type |
| Populate.LoadArgsKeepsWellTyped | args.go:206-210 | `LoadArgs` keeps every field's value of its declared type |
| HelloExample.NewIsStringBuiltin | args.go:20-42 | the registry `New` builds holds the built-in `LoadString` and the String wire-type for `string`, so the examples below hold of it |
| HelloExample.StringFieldStep | args.go:201-210 | on a present `string` field, a boxed string is written as it is, any other boxed value fails with "cannot populate <Field>: … is not a string", and nil fails as a recovered panic |
| HelloExample.HelloSchema | example/test.go:12-15 | the `helloArgs` schema is exactly `name` and `greeting`, both String, with their descriptions, for the struct and a pointer to it; a pointer to a pointer is refused |
| HelloExample.HelloLoadsBoth | example/test.go:22-25 | `{"name": "Joe", "greeting": "Goodbye"}` fills both fields with no error |
| HelloExample.HelloMissingName | args.go:195-196 | `{"greeting": "Hi"}` fails with "name is required" and leaves `helloArgs` as it was |
| HelloExample.HelloWrongType | args.go:206-208 | `{"name": 42}` fails with "cannot populate Name: 42 is not a string" |
| HelloExample.HelloNilName | args.go:183-206 | `{"name": nil}` is not reported missing but reaches the loader and fails as a recovered panic |
| HelloExample.NoRollback | args.go:206-210 | with the fields in the other order, a missing `name` fails after `Greeting` was already written |
| HelloExample.RequiredTagParsedOnlyWhenAbsent | args.go:183-200 | a `required:"yes"` tag is harmless when the key is present and an error only when it is absent |

Behaviours of the code worth knowing:

- A missing required argument does not undo writes to earlier fields (`NoRollback`).
- The `required` tag accepts all twelve spellings of `strconv.ParseBool`, not only `true` and `false`.
- A present key holding nil is forwarded to the loader. Through the built-ins it then fails inside `reflect.Value.Call` with "Call using zero Value argument", which the wrapper reports as a panic.

## Left out

- GraphQL types (`graphql.Output`, `ResolveParams`, `FieldConfigArgument`) are opaque: wire-types are the `WireType` tokens, and `p.Args` is a `map<string, Iface>`.
- Reflection itself, struct-tag string parsing and `runtime.FuncForPC`: fields come with parsed tags, and a func carries its name as a string.
- Exact `fmt` message text: errors are tagged datatypes that carry the key, field name, type or value the message shows.
- The inputs of `SafeArgsConfig` and `LoadArgs` are represented by their type alone, so `NotAStruct`, `NotAPointer` and `NotAPointerToStruct` carry the input's type where the message prints its value (args.go:86, 166, 171).
- `float64` values are opaque bit patterns; no numeric reasoning is done on them. Go's `int` is taken to be 64 bits wide.
- An untyped nil passed to `Register`, `SafeArgsConfig` or `LoadArgs` makes `reflect.TypeOf(nil).Kind()` panic in the source; every input of the model carries a type.
- A typed nil pointer to a struct given to `LoadArgs` panics at the first field write; the model's pointer always points at a struct value.
- A tagged unexported field makes `reflect.Value.Set` panic; the model treats every tagged field as settable.
- Registry.AssignableTo: Go's assignability is simplified to "same type, or the parameter is `interface{}`"; a parameter of a non-empty interface type accepts only its own exact type here. Variadic loader funcs are not modelled.
- A loader that calls `panic(nil)` is treated as any other panic.
- A typed nil func (such as a nil `func(interface{}) (int, error)` variable) passes `Register` with an empty name. Its wrapped call panics with "call of nil function" before any argument check. `Func` has no nil value, so this case is not modelled.
- Loaders and fields of interface type: `Valid` and `WellTyped` ask for a value's dynamic type to equal the declared type. A loader declared to return `interface{}`, or an `interface{}` field holding a string, is valid Go but lies outside them. So `RegisterKeepsValid` and `LoadArgsKeepsWellTyped` speak only of loaders and fields of exact, non-interface types.
- Schema.ArgsConfig: its panic on a non-struct input is modelled as a precondition.
- The `init` singleton and its panic (args.go:262-270), and the package-level wrappers (args.go:247-260). They only forward to one registry built by `New`, and `New` is proved to succeed.
- Struct types are identified by their field lists: two distinct named struct types with equal fields would be one registry key here, and a named struct appears as `TStruct` when its fields are walked but as `TNamed` when it is a field's type.
- Concurrency: the maps are unsynchronised, and callers must serialise `Register` with every other call.
- The rest of example/test.go (schema construction, query execution, JSON output) is demonstration code; only its `helloArgs` struct is used, as test vectors.

=== FILE: builtins.dfy ===
/** The built-in scalar loader funcs, the `DefaultLoaders` table that pairs
    them with GraphQL wire-types, and `New`, which registers the table on an
    empty registry (args.go). */
module Builtins {
  import opened GoTypes
  import opened Registry

  /** The type assertion `i.(T)` of a loader func: it holds exactly when the
      interface is non-nil and its dynamic type is `t`; nothing is converted. */
  function TypeAssert(i: Iface, t: GoType, kind: string): (r: Outcome)
    ensures !r.Panic?
    ensures r.Ok? <==> i.Boxed? && DynamicType(i.v) == t
    ensures r.Ok? ==> r.value == i.v
    ensures r.Err? ==> r.error == NotA(kind, i)
  {
    if i.Boxed? && DynamicType(i.v) == t then Ok(i.v) else Err(NotA(kind, i))
  }

  /** `LoadBool`: accepts a `bool` and nothing else. */
  function LoadBool(i: Iface): (r: Outcome)
    ensures !r.Panic?
    ensures r.Ok? <==> i.Boxed? && i.v.VBool?
    ensures r.Ok? ==> r.value == i.v
    ensures r.Err? ==> r.error == NotA("bool", i)
  {
    TypeAssert(i, TBool, "bool")
  }

  /** `LoadString`: accepts a `string` and nothing else. */
  function LoadString(i: Iface): (r: Outcome)
    ensures !r.Panic?
    ensures r.Ok? <==> i.Boxed? && i.v.VString?
    ensures r.Ok? ==> r.value == i.v
    ensures r.Err? ==> r.error == NotA("string", i)
  {
    TypeAssert(i, TString, "string")
  }

  /** `LoadInt`: accepts an `int` and nothing else, not even a float64 with
      an integral value. */
  function LoadInt(i: Iface): (r: Outcome)
    ensures !r.Panic?
    ensures r.Ok? <==> i.Boxed? && i.v.VInt?
    ensures r.Ok? ==> r.value == i.v
    ensures r.Err? ==> r.error == NotA("int", i)
  {
    TypeAssert(i, TInt, "int")
  }

  /** `LoadFloat`: accepts a `float64` and nothing else, not even an `int`. */
  function LoadFloat(i: Iface): (r: Outcome)
    ensures !r.Panic?
    ensures r.Ok? <==> i.Boxed? && i.v.VFloat?
    ensures r.Ok? ==> r.value == i.v
    ensures r.Err? ==> r.error == NotA("float", i)
  {
    TypeAssert(i, TFloat64, "float")
  }

  /** One row of `DefaultLoaders`. */
  datatype DefaultLoader = DefaultLoader(loaderFunc: Candidate, gqlType: Wire)

  /** The package path `runtime.FuncForPC` prefixes to the built-ins' names. */
  const PackagePath: string := "github.com/btubbs/graphql-go-helpers."

  /** The signature of every built-in: `func(interface{}) (T, error)`. */
  function BuiltinFunc(name: string, t: GoType, body: Iface -> Outcome): Func {
    Func(PackagePath + name, [TAny], [OutParam(t, false, false), OutParam(TError, true, true)], body)
  }

  /** `DefaultLoaders`: the four built-ins with their wire-types. */
  const DefaultLoaders: seq<DefaultLoader> := [
    DefaultLoader(IsFunc(BuiltinFunc("LoadBool", TBool, LoadBool)), Some(GqlBoolean)),
    DefaultLoader(IsFunc(BuiltinFunc("LoadString", TString, LoadString)), Some(GqlString)),
    DefaultLoader(IsFunc(BuiltinFunc("LoadInt", TInt, LoadInt)), Some(GqlInt)),
    DefaultLoader(IsFunc(BuiltinFunc("LoadFloat", TFloat64, LoadFloat)), Some(GqlFloat))
  ]

  /** The wire-type each scalar type is paired with in `DefaultLoaders`. */
  function ScalarWire(t: GoType): WireType {
    match t
    case TBool => GqlBoolean
    case TString => GqlString
    case TInt => GqlInt
    case _ => GqlFloat
  }

  /** The table itself: four rows, one per scalar type in the order bool,
      string, int, float64; each row's func is a type assertion to its own
      result type, paired with that type's wire-type. */
  lemma DefaultLoadersTable()
    ensures |DefaultLoaders| == 4
    ensures forall j :: 0 <= j < 4 ==> ShapedRow(DefaultLoaders[j])
    ensures RowType(DefaultLoaders[0]) == TBool && RowType(DefaultLoaders[1]) == TString
    ensures RowType(DefaultLoaders[2]) == TInt && RowType(DefaultLoaders[3]) == TFloat64
    ensures forall j :: 0 <= j < 4 ==> DefaultLoaders[j].gqlType == Some(ScalarWire(RowType(DefaultLoaders[j])))
    ensures forall j, i :: 0 <= j < 4 ==>
              DefaultLoaders[j].loaderFunc.f.body(i) ==
              TypeAssert(i, RowType(DefaultLoaders[j]), KindName(RowType(DefaultLoaders[j])))
  {
  }

  /** The loop of `New`: register each row in turn, stopping at the first error. */
  function RegisterAll(e: ArgLoader, ds: seq<DefaultLoader>): (r: Result<ArgLoader, RegisterError>)
    ensures r.Success? ==> forall j :: 0 <= j < |ds| ==> ds[j].loaderFunc.IsFunc?
    ensures r.Success? ==> forall t :: t in e.loaderFuncs ==>
              t in r.value.loaderFuncs && r.value.loaderFuncs[t] == e.loaderFuncs[t]
    ensures r.Success? ==> forall t :: t in e.loaderFuncs && t in e.gqlTypes ==>
              t in r.value.gqlTypes && r.value.gqlTypes[t] == e.gqlTypes[t]
    decreases |ds|
  {
    if |ds| == 0 then
      Success(e)
    else
      var u := Register(e, ds[0].loaderFunc, ds[0].gqlType);
      if u.err.Some? then Failure(u.err.value) else RegisterAll(u.state, ds[1..])
  }

  /** A row whose loader func has the shape `Register` insists on. */
  predicate ShapedRow(d: DefaultLoader) {
    d.loaderFunc.IsFunc? && Shaped(d.loaderFunc.f)
  }

  /** The type a shaped row registers a loader for. */
  function RowType(d: DefaultLoader): GoType
    requires ShapedRow(d)
  {
    d.loaderFunc.f.outs[0].ty
  }

  /** The types a sequence of shaped rows registers loaders for. */
  function RowTypes(ds: seq<DefaultLoader>): set<GoType>
    requires forall j :: 0 <= j < |ds| ==> ShapedRow(ds[j])
  {
    if |ds| == 0 then {} else {RowType(ds[0])} + RowTypes(ds[1..])
  }

  /** Rows that can all be registered on `e`: each is shaped, returns values
      of its declared type, and their types are distinct and new to `e`. */
  ghost predicate Registrable(e: ArgLoader, ds: seq<DefaultLoader>) {
    && (forall j :: 0 <= j < |ds| ==> ShapedRow(ds[j]))
    && (forall j :: 0 <= j < |ds| ==> RowType(ds[j]) !in e.loaderFuncs)
    && (forall j :: 0 <= j < |ds| ==> ReturnsType(ds[j].loaderFunc.f.body, RowType(ds[j])))
    && (forall j, k :: 0 <= j < k < |ds| ==> RowType(ds[j]) != RowType(ds[k]))
  }

  /** One turn of the loop of `New` on registrable rows. */
  lemma RegisterFirstRow(e: ArgLoader, ds: seq<DefaultLoader>)
    requires Valid(e) && Registrable(e, ds) && |ds| > 0
    ensures var u := Register(e, ds[0].loaderFunc, ds[0].gqlType);
            && u.err.None?
            && Valid(u.state)
            && Registrable(u.state, ds[1..])
            && u.state.loaderFuncs.Keys == e.loaderFuncs.Keys + {RowType(ds[0])}
            && u.state.loaderFuncs[RowType(ds[0])] == Wrap(ds[0].loaderFunc.f)
            && u.state.gqlTypes[RowType(ds[0])] == ds[0].gqlType
            && (forall t :: t in e.loaderFuncs ==>
                  u.state.loaderFuncs[t] == e.loaderFuncs[t] && u.state.gqlTypes[t] == e.gqlTypes[t])
  {
    RegisterKeepsValid(e, ds[0].loaderFunc, ds[0].gqlType);
  }

  /** Registering rows with distinct, new types always succeeds, keeps the
      registry invariant, adds exactly the rows' types, and keeps every
      earlier entry. */
  lemma RegisterAllSucceeds(e: ArgLoader, ds: seq<DefaultLoader>)
    requires Valid(e)
    requires Registrable(e, ds)
    ensures RegisterAll(e, ds).Success?
    ensures Valid(RegisterAll(e, ds).value)
    ensures RegisterAll(e, ds).value.loaderFuncs.Keys == e.loaderFuncs.Keys + RowTypes(ds)
    ensures forall u :: u in e.loaderFuncs ==>
              && RegisterAll(e, ds).value.loaderFuncs[u] == e.loaderFuncs[u]
              && RegisterAll(e, ds).value.gqlTypes[u] == e.gqlTypes[u]
  {
    RegisterAllValid(e, ds);
  }

  /** The induction behind `RegisterAllSucceeds`: no row errs, the invariant
      holds after each, and each adds exactly its own type. */
  lemma {:induction false} RegisterAllValid(e: ArgLoader, ds: seq<DefaultLoader>)
    requires Valid(e)
    requires Registrable(e, ds)
    ensures RegisterAll(e, ds).Success?
    ensures Valid(RegisterAll(e, ds).value)
    ensures RegisterAll(e, ds).value.loaderFuncs.Keys == e.loaderFuncs.Keys + RowTypes(ds)
    decreases |ds|
  {
    if |ds| > 0 {
      RegisterFirstRow(e, ds);
      var u := Register(e, ds[0].loaderFunc, ds[0].gqlType);
      assert RegisterAll(e, ds) == RegisterAll(u.state, ds[1..]);
      assert RowTypes(ds) == {RowType(ds[0])} + RowTypes(ds[1..]);
      RegisterAllValid(u.state, ds[1..]);
    }
  }

  /** After registering rows with distinct, new types, each row's wrapped
      func and wire-type sit under its type. */
  lemma {:induction false} RegisterAllEntries(e: ArgLoader, ds: seq<DefaultLoader>, j: nat)
    requires Valid(e)
    requires Registrable(e, ds)
    requires j < |ds|
    ensures RegisterAll(e, ds).Success?
    ensures RowType(ds[j]) in RegisterAll(e, ds).value.loaderFuncs
    ensures RowType(ds[j]) in RegisterAll(e, ds).value.gqlTypes
    ensures RegisterAll(e, ds).value.loaderFuncs[RowType(ds[j])] == Wrap(ds[j].loaderFunc.f)
    ensures RegisterAll(e, ds).value.gqlTypes[RowType(ds[j])] == ds[j].gqlType
    decreases j
  {
    RegisterFirstRow(e, ds);
    var u := Register(e, ds[0].loaderFunc, ds[0].gqlType);
    assert RegisterAll(e, ds) == RegisterAll(u.state, ds[1..]);
    if j == 0 {
      RegisterAllSucceeds(u.state, ds[1..]);
    } else {
      assert ds[1..][j - 1] == ds[j];
      RegisterAllEntries(u.state, ds[1..], j - 1);
    }
  }

  /** The built-ins return values of the types they declare. */
  lemma DefaultLoadersRegistrable()
    ensures Registrable(Empty(), DefaultLoaders)
    ensures RowTypes(DefaultLoaders) == {TBool, TString, TInt, TFloat64}
  {
    var ds := DefaultLoaders;
    assert ReturnsType(LoadBool, TBool);
    assert ReturnsType(LoadString, TString);
    assert ReturnsType(LoadInt, TInt);
    assert ReturnsType(LoadFloat, TFloat64);
    assert ds[4..] == [];
    assert RowTypes(ds[3..]) == {TFloat64} by { assert ds[3..][1..] == ds[4..]; }
    assert RowTypes(ds[2..]) == {TInt, TFloat64} by { assert ds[2..][1..] == ds[3..]; }
    assert RowTypes(ds[1..]) == {TString, TInt, TFloat64} by { assert ds[1..][1..] == ds[2..]; }
  }

  /** `New`: the four built-ins register without error, giving a registry
      with exactly `bool`, `string`, `int` and `float64`, each mapped to its
      wire-type. */
  function New(): (r: Result<ArgLoader, RegisterError>)
    ensures r.Success?
    ensures Valid(r.value)
    ensures r.value.loaderFuncs.Keys == {TBool, TString, TInt, TFloat64}
    ensures r.value.gqlTypes ==
              map[TBool := Some(GqlBoolean), TString := Some(GqlString),
                  TInt := Some(GqlInt), TFloat64 := Some(GqlFloat)]
  {
    NewSucceeds();
    RegisterAll(Empty(), DefaultLoaders)
  }

  /** The facts `New`'s contract rests on. */
  lemma NewSucceeds()
    ensures RegisterAll(Empty(), DefaultLoaders).Success?
    ensures var e := RegisterAll(Empty(), DefaultLoaders).value;
            && Valid(e)
            && e.loaderFuncs.Keys == {TBool, TString, TInt, TFloat64}
            && e.gqlTypes == map[TBool := Some(GqlBoolean), TString := Some(GqlString),
                                 TInt := Some(GqlInt), TFloat64 := Some(GqlFloat)]
  {
    DefaultLoadersRegistrable();
    RegisterDefaults(Empty(), DefaultLoaders);
  }

  /** `NewSucceeds` for any empty, valid registry and rows equal to the built-ins. */
  lemma RegisterDefaults(e0: ArgLoader, ds: seq<DefaultLoader>)
    requires Valid(e0) && e0.loaderFuncs.Keys == {}
    requires Registrable(e0, ds) && RowTypes(ds) == {TBool, TString, TInt, TFloat64}
    requires |ds| == 4
    requires RowType(ds[0]) == TBool && RowType(ds[1]) == TString
    requires RowType(ds[2]) == TInt && RowType(ds[3]) == TFloat64
    ensures RegisterAll(e0, ds).Success?
    ensures var e := RegisterAll(e0, ds).value;
            && Valid(e)
            && e.loaderFuncs.Keys == {TBool, TString, TInt, TFloat64}
            && e.gqlTypes == map[TBool := ds[0].gqlType, TString := ds[1].gqlType,
                                 TInt := ds[2].gqlType, TFloat64 := ds[3].gqlType]
  {
    RegisterAllSucceeds(e0, ds);
    var e := RegisterAll(e0, ds).value;
    assert e.gqlTypes.Keys == {TBool, TString, TInt, TFloat64};
    RegisterAllEntries(e0, ds, 0);
    RegisterAllEntries(e0, ds, 1);
    RegisterAllEntries(e0, ds, 2);
    RegisterAllEntries(e0, ds, 3);
    FourEntries(e.gqlTypes, ds[0].gqlType, ds[1].gqlType, ds[2].gqlType, ds[3].gqlType);
  }

  /** A map over exactly the four scalar types is the display of its entries. */
  lemma FourEntries(m: map<GoType, Wire>, b: Wire, s: Wire, i: Wire, f: Wire)
    requires m.Keys == {TBool, TString, TInt, TFloat64}
    requires m[TBool] == b && m[TString] == s && m[TInt] == i && m[TFloat64] == f
    ensures m == map[TBool := b, TString := s, TInt := i, TFloat64 := f]
  {
  }

  /** The built-in func for each scalar type. */
  function BuiltinFor(t: GoType): Func {
    if t == TBool then BuiltinFunc("LoadBool", TBool, LoadBool)
    else if t == TString then BuiltinFunc("LoadString", TString, LoadString)
    else if t == TInt then BuiltinFunc("LoadInt", TInt, LoadInt)
    else BuiltinFunc("LoadFloat", TFloat64, LoadFloat)
  }

  /** The loader `New` registers for each scalar type. */
  lemma NewLoader(t: GoType)
    requires IsScalar(t)
    ensures New().value.loaderFuncs[t] == Wrap(BuiltinFor(t))
  {
    DefaultLoadersRegistrable();
    var k := if t == TBool then 0 else if t == TString then 1 else if t == TInt then 2 else 3;
    RegisterAllEntries(Empty(), DefaultLoaders, k);
  }

  /** The kind name a built-in's "is not a ..." error uses for its type. */
  function KindName(t: GoType): string {
    match t
    case TBool => "bool"
    case TString => "string"
    case TInt => "int"
    case _ => "float"
  }

  /** Through the registry `New` builds, a present value of exactly the
      field's type loads as itself; a value of any other type (an `int` for a
      `float64` field, say) fails with "is not a ...", and a nil value fails
      because `reflect.Value.Call` refuses a zero argument. */
  lemma DefaultLoadersExact(t: GoType, i: Iface)
    requires t in New().value.loaderFuncs
    ensures var w := New().value.loaderFuncs[t];
            && (i.Boxed? && DynamicType(i.v) == t ==> Call(w, i) == Success(i.v))
            && (i.Boxed? && DynamicType(i.v) != t ==> Call(w, i) == Failure(Returned(NotA(KindName(t), i))))
            && (i.Nil? ==> Call(w, i) == Failure(Panicked(w.fname, ZeroValueArgument)))
  {
    NewLoader(t);
    BuiltinCall(t, i);
  }

  /** Calling the wrapped built-in for a scalar type `t`: exactly a value of
      type `t` loads as itself, another boxed value is an "is not a ..."
      error, and nil is a recovered panic. */
  lemma BuiltinCall(t: GoType, i: Iface)
    requires IsScalar(t)
    ensures var w := Wrap(BuiltinFor(t));
            && (i.Boxed? && DynamicType(i.v) == t ==> Call(w, i) == Success(i.v))
            && (i.Boxed? && DynamicType(i.v) != t ==> Call(w, i) == Failure(Returned(NotA(KindName(t), i))))
            && (i.Nil? ==> Call(w, i) == Failure(Panicked(w.fname, ZeroValueArgument)))
  {
  }
}

=== FILE: gotypes.dfy ===
/** The Go side of the argument loader, written out as data: the types and
    values the loader inspects through reflection, the struct tags it reads,
    and the Option/Result wrappers the rest of the model returns. */
module GoTypes {

  /** An optional value: a struct tag that may be absent, a wire-type that
      may be unregistered, an error result that may be nil. */
  datatype Option<+T> = None | Some(value: T)

  /** A value or an error, for the Go functions that return `(T, error)`. */
  datatype Result<+T, +E> = Success(value: T) | Failure(error: E)

  /** What a Go call that mutates its receiver or argument leaves behind: the
      state after the call, and the error it returned (None for a nil error). */
  datatype Updated<+S, +E> = Updated(state: S, err: Option<E>)

  /** Go's `int` on a 64-bit platform. */
  type Int64 = i: int | -0x8000_0000_0000_0000 <= i < 0x8000_0000_0000_0000

  /** A `float64`, carried as its bit pattern; the loader never computes with it. */
  datatype Float64 = Float64(bits: bv64)

  /** The three struct tags the loader reads from a field: `arg`, `required`
      and `desc`. None means the tag is absent (`Tag.Lookup` reports not ok). */
  datatype Tags = Tags(arg: Option<string>, required: Option<string>, desc: Option<string>)

  /** A Go type, as far as `reflect.Type` identity matters to the loader.
      Types are equal exactly when these descriptions are equal. A struct type
      is identified by its fields: two named struct types with equal fields
      are the same type here, and a named struct is `TStruct` where its
      fields are walked but `TNamed` where it is the type of a field. */
  datatype GoType =
    | TBool
    | TString
    | TInt
    | TFloat64
    | TAny                          // interface{}
    | TError                        // the predeclared `error` interface
    | TNamed(name: string)          // any other type, identified by its name
    | TPtr(elem: GoType)
    | TStruct(fields: seq<FieldDesc>)

  /** One field of a struct type, in declaration order. */
  datatype FieldDesc = FieldDesc(name: string, ty: GoType, tags: Tags)

  /** The four scalar types the built-in loaders handle. */
  predicate IsScalar(t: GoType) {
    t.TBool? || t.TString? || t.TInt? || t.TFloat64?
  }

  /** The dynamic type of a value beyond the four scalars: any type but the
      scalars and the two interface types, which no value has as its
      dynamic type. */
  type OtherType = t: GoType | !IsScalar(t) && !t.TAny? && !t.TError? witness TNamed("T")

  /** A Go value. `VOther` is a value of any type beyond the four scalars,
      told apart from others of its type by an opaque token. */
  datatype GoValue =
    | VBool(b: bool)
    | VString(s: string)
    | VInt(i: Int64)
    | VFloat(f: Float64)
    | VOther(ty: OtherType, token: nat)

  /** The content of an `interface{}`: nil, or a value boxed with its dynamic type. */
  datatype Iface = Nil | Boxed(v: GoValue)

  /** The dynamic type of a value, as `reflect.TypeOf` reports it. */
  function DynamicType(v: GoValue): GoType {
    match v
    case VBool(_) => TBool
    case VString(_) => TString
    case VInt(_) => TInt
    case VFloat(_) => TFloat64
    case VOther(ty, _) => ty
  }

  /** The names the `arg` tags of `fs` expose. */
  function ArgNames(fs: seq<FieldDesc>): set<string> {
    set j | 0 <= j < |fs| && fs[j].tags.arg.Some? :: fs[j].tags.arg.value
  }
}

=== FILE: hello.dfy ===
/** Worked examples: lemmas about the model on the `helloArgs` struct of the example
    program (example/test.go): a required `name` and an optional `greeting`,
    both strings, loaded through the registry `New` builds. */
module HelloExample {
  import opened GoTypes
  import opened Registry
  import opened Builtins
  import opened Schema
  import opened Populate
  import StrConv

  /** The `Name` field: a string, with arg `name`, required `true` and desc `Your name`. */
  const NameField: FieldDesc := FieldDesc("Name", TString, Tags(Some("name"), Some("true"), Some("Your name")))

  /** The `Greeting` field: a string, with arg `greeting`, no required tag and desc `How to say hello`. */
  const GreetingField: FieldDesc := FieldDesc("Greeting", TString, Tags(Some("greeting"), None, Some("How to say hello")))

  /** The fields of `helloArgs`, in declaration order. */
  const HelloFields: seq<FieldDesc> := [NameField, GreetingField]

  /** `var args helloArgs`: both fields hold "". */
  const ZeroHello: seq<GoValue> := [VString(""), VString("")]

  function Str(s: string): Iface {
    Boxed(VString(s))
  }

  /** The registry holds the built-in loader and the String wire-type for
      `string`, as the one `New` builds does. */
  ghost predicate StringBuiltin(e: ArgLoader) {
    && TString in e.loaderFuncs
    && e.loaderFuncs[TString] == Wrap(BuiltinFunc("LoadString", TString, LoadString))
    && TString in e.gqlTypes
    && e.gqlTypes[TString] == Some(GqlString)
  }

  /** `New` builds such a registry, so every example below holds of it. */
  lemma NewIsStringBuiltin()
    ensures StringBuiltin(New().value)
  {
    NewLoader(TString);
  }

  /** One turn of the loop on a present `string` field: a boxed string is
      written as is, any other boxed value is an "is not a string" error,
      and nil is a recovered panic. */
  lemma StringFieldStep(e: ArgLoader, args: map<string, Iface>, f: FieldDesc)
    requires StringBuiltin(e)
    requires f.ty == TString && f.tags.arg.Some? && f.tags.arg.value in args
    ensures var i := args[f.tags.arg.value];
            && (i.Boxed? && i.v.VString? ==> FieldStep(e, args, f) == Write(i.v))
            && (i.Boxed? && !i.v.VString? ==>
                  FieldStep(e, args, f) == Stop(CannotPopulate(f.name, Returned(NotA("string", i)))))
            && (i.Nil? ==>
                  FieldStep(e, args, f) ==
                  Stop(CannotPopulate(f.name, Panicked(PackagePath + "LoadString", ZeroValueArgument))))
  {
  }

  /** The schema of `helloArgs` has exactly the entries `name` and
      `greeting`, both of the String wire-type, with their descriptions,
      whether the struct or a pointer to it is passed. */
  lemma HelloSchema(e: ArgLoader)
    requires StringBuiltin(e)
    ensures SafeArgsConfig(e, TStruct(HelloFields)) ==
              Success(map["name" := ArgConfig(Some(GqlString), "Your name"),
                          "greeting" := ArgConfig(Some(GqlString), "How to say hello")])
    ensures SafeArgsConfig(e, TPtr(TStruct(HelloFields))) ==
              SafeArgsConfig(e, TStruct(HelloFields))
    ensures SafeArgsConfig(e, TPtr(TPtr(TStruct(HelloFields)))) ==
              Failure(NotAStruct(TPtr(TPtr(TStruct(HelloFields)))))
  {
    assert HelloFields[..1] == [NameField];
    assert [NameField][..0] == [];
    assert EntryFor(e, NameField) == ArgConfig(Some(GqlString), "Your name");
    assert EntryFor(e, GreetingField) == ArgConfig(Some(GqlString), "How to say hello");
    assert Configs(e, [NameField]) == map["name" := EntryFor(e, NameField)];
    assert Configs(e, HelloFields) == Configs(e, [NameField])["greeting" := EntryFor(e, GreetingField)];
  }

  /** `{"name": "Joe", "greeting": "Goodbye"}` fills both fields. */
  lemma HelloLoadsBoth(e: ArgLoader)
    requires StringBuiltin(e)
    ensures LoadArgs(e, map["name" := Str("Joe"), "greeting" := Str("Goodbye")],
                     PtrToStruct(HelloFields, ZeroHello)) ==
              Updated(PtrToStruct(HelloFields, [VString("Joe"), VString("Goodbye")]), None)
  {
    var args := map["name" := Str("Joe"), "greeting" := Str("Goodbye")];
    StringFieldStep(e, args, NameField);
    StringFieldStep(e, args, GreetingField);
    var vs1 := ZeroHello[0 := VString("Joe")];
    var vs2 := vs1[1 := VString("Goodbye")];
    assert vs2 == [VString("Joe"), VString("Goodbye")];
    LoadFieldsWrite(e, args, HelloFields, ZeroHello, 0, VString("Joe"));
    LoadFieldsWrite(e, args, HelloFields, vs1, 1, VString("Goodbye"));
  }

  /** `{"greeting": "Hi"}` fails with "name is required" before any field is written. */
  lemma HelloMissingName(e: ArgLoader)
    requires StringBuiltin(e)
    ensures LoadArgs(e, map["greeting" := Str("Hi")], PtrToStruct(HelloFields, ZeroHello)) ==
              Updated(PtrToStruct(HelloFields, ZeroHello), Some(Required("name")))
  {
  }

  /** `{"name": 42}` fails with "cannot populate Name: 42 is not a string". */
  lemma HelloWrongType(e: ArgLoader)
    requires StringBuiltin(e)
    ensures LoadArgs(e, map["name" := Boxed(VInt(42))], PtrToStruct(HelloFields, ZeroHello)) ==
              Updated(PtrToStruct(HelloFields, ZeroHello),
                      Some(CannotPopulate("Name", Returned(NotA("string", Boxed(VInt(42)))))))
  {
    StringFieldStep(e, map["name" := Boxed(VInt(42))], NameField);
  }

  /** `{"name": nil}` counts as present: it is not reported as missing but
      reaches the loader, whose call panics on the zero argument. */
  lemma HelloNilName(e: ArgLoader)
    requires StringBuiltin(e)
    ensures LoadArgs(e, map["name" := Nil], PtrToStruct(HelloFields, ZeroHello)) ==
              Updated(PtrToStruct(HelloFields, ZeroHello),
                      Some(CannotPopulate("Name", Panicked(PackagePath + "LoadString", ZeroValueArgument))))
  {
    StringFieldStep(e, map["name" := Nil], NameField);
  }

  /** With the fields declared the other way round, a missing required
      `name` still fails, but `Greeting` has already been written: an error
      does not leave the struct untouched. */
  lemma NoRollback(e: ArgLoader)
    requires StringBuiltin(e)
    ensures LoadArgs(e, map["greeting" := Str("Hi")], PtrToStruct([GreetingField, NameField], ZeroHello)) ==
              Updated(PtrToStruct([GreetingField, NameField], [VString("Hi"), VString("")]), Some(Required("name")))
  {
    var args := map["greeting" := Str("Hi")];
    var fs := [GreetingField, NameField];
    StringFieldStep(e, args, GreetingField);
    assert FieldStep(e, args, NameField) == Stop(Required("name"));
    var vs1 := ZeroHello[0 := VString("Hi")];
    assert vs1 == [VString("Hi"), VString("")];
    LoadFieldsWrite(e, args, fs, ZeroHello, 0, VString("Hi"));
    LoadFieldsStop(e, args, fs, vs1, 1, Required("name"));
  }

  /** The `required` tag is only parsed when the key is absent: a field
      tagged `required:"yes"` loads normally when its key is present, and
      only an absent key reports the bad tag. */
  lemma RequiredTagParsedOnlyWhenAbsent(e: ArgLoader)
    requires StringBuiltin(e)
    ensures var f := FieldDesc("Name", TString, Tags(Some("name"), Some("yes"), None));
            && LoadArgs(e, map["name" := Str("Joe")], PtrToStruct([f], [VString("")])) ==
                 Updated(PtrToStruct([f], [VString("Joe")]), None)
            && LoadArgs(e, map[], PtrToStruct([f], [VString("")])) ==
                 Updated(PtrToStruct([f], [VString("")]), Some(InvalidRequiredTag("yes")))
  {
    var f := FieldDesc("Name", TString, Tags(Some("name"), Some("yes"), None));
    var args := map["name" := Str("Joe")];
    StringFieldStep(e, args, f);
    assert [VString("")][0 := VString("Joe")] == [VString("Joe")];
    LoadFieldsWrite(e, args, [f], [VString("")], 0, VString("Joe"));
    assert StrConv.ParseBool("yes") == None;
    LoadFieldsStop(e, map[], [f], [VString("")], 0, InvalidRequiredTag("yes"));
  }
}

=== FILE: populate.dfy ===
/** The field populator: `LoadArgs` (args.go) copies values from a GraphQL
    argument map into the tagged fields of a struct, through the registry's
    wrapped loaders, in field declaration order. */
module Populate {
  import opened GoTypes
  import opened StrConv
  import opened Registry

  /** The destination handed to `LoadArgs`, told apart by its dynamic type. */
  datatype Dest =
    | PtrToStruct(fields: seq<FieldDesc>, values: seq<GoValue>)  // &s: the struct's fields and their values
    | PtrToOther(elem: GoType)                                  // a pointer to anything but a struct
    | NotPtr(ty: GoType)                                        // any non-pointer value

  /** The shapes the constructors above stand for. */
  predicate WellFormed(c: Dest) {
    match c
    case PtrToStruct(fs, vs) => |vs| == |fs|
    case PtrToOther(elem) => !elem.TStruct?
    case NotPtr(ty) => !ty.TPtr?
  }

  /** The errors `LoadArgs` returns. */
  datatype LoadError =
    | NotAPointer(ty: GoType)                        // "<c> is not a pointer"
    | NotAPointerToStruct(ty: GoType)                // "<c> is not a pointer to a struct"
    | InvalidRequiredTag(value: string)              // "<v> is not a valid 'required' tag value"
    | Required(key: string)                          // "<key> is required"
    | NoLoader(ty: GoType)                           // "no loader function found for type <t>"
    | CannotPopulate(field: string, cause: LoaderError)  // "cannot populate <Field>: <cause>"

  /** What the loop body does with one field: leave it, write a value, or
      return an error. */
  datatype Step = Keep | Write(value: GoValue) | Stop(err: LoadError)

  /** One turn of the loop of `LoadArgs`. An absent key consults the
      `required` tag (and only then parses it); a present key, even one
      holding nil, goes to the loader registered for the field's type. */
  function FieldStep(e: ArgLoader, args: map<string, Iface>, f: FieldDesc): (s: Step)
    ensures f.tags.arg.None? ==> s == Keep
    ensures f.tags.arg.Some? && f.tags.arg.value !in args ==>
              && (s.Stop? <==> f.tags.required.Some? && ParseBool(f.tags.required.value) != Some(false))
              && (!s.Stop? ==> s == Keep)
              && (s.Stop? && ParseBool(f.tags.required.value) == None ==>
                    s.err == InvalidRequiredTag(f.tags.required.value))
              && (s.Stop? && ParseBool(f.tags.required.value) == Some(true) ==>
                    s.err == Required(f.tags.arg.value))
    ensures f.tags.arg.Some? && f.tags.arg.value in args ==>
              && !s.Keep?
              && (f.ty !in e.loaderFuncs ==> s == Stop(NoLoader(f.ty)))
              && (f.ty in e.loaderFuncs ==>
                    var res := Call(e.loaderFuncs[f.ty], args[f.tags.arg.value]);
                    && (res.Success? ==> s == Write(res.value))
                    && (res.Failure? ==> s == Stop(CannotPopulate(f.name, res.error))))
  {
    match f.tags.arg
    case None => Keep
    case Some(key) =>
      if key !in args then
        match f.tags.required
        case None => Keep
        case Some(rv) =>
          match ParseBool(rv)
          case None => Stop(InvalidRequiredTag(rv))
          case Some(required) => if required then Stop(Required(key)) else Keep
      else if f.ty !in e.loaderFuncs then
        Stop(NoLoader(f.ty))
      else
        match Call(e.loaderFuncs[f.ty], args[key])
        case Failure(err) => Stop(CannotPopulate(f.name, err))
        case Success(v) => Write(v)
  }

  /** The loop of `LoadArgs` from field `i` on, as a left fold: it returns
      the field values as they stand when it finishes or stops. Fields
      before `i` and fields without an `arg` tag are never written. */
  function LoadFields(e: ArgLoader, args: map<string, Iface>, fs: seq<FieldDesc>, vs: seq<GoValue>, i: nat)
    : (r: Updated<seq<GoValue>, LoadError>)
    requires |vs| == |fs| && i <= |fs|
    ensures |r.state| == |fs|
    ensures forall j :: 0 <= j < |fs| && (j < i || fs[j].tags.arg.None?) ==> r.state[j] == vs[j]
    decreases |fs| - i
  {
    if i == |fs| then
      Updated(vs, None)
    else
      match FieldStep(e, args, fs[i])
      case Keep => LoadFields(e, args, fs, vs, i + 1)
      case Write(v) => LoadFields(e, args, fs, vs[i := v], i + 1)
      case Stop(err) => Updated(vs, Some(err))
  }

  /** One turn of the loop that writes: the rest of the walk sees the new value. */
  lemma LoadFieldsWrite(e: ArgLoader, args: map<string, Iface>, fs: seq<FieldDesc>, vs: seq<GoValue>, i: nat, v: GoValue)
    requires |vs| == |fs| && i < |fs| && FieldStep(e, args, fs[i]) == Write(v)
    ensures LoadFields(e, args, fs, vs, i) == LoadFields(e, args, fs, vs[i := v], i + 1)
  {
  }

  /** One turn of the loop that stops: the values stand as they are. */
  lemma LoadFieldsStop(e: ArgLoader, args: map<string, Iface>, fs: seq<FieldDesc>, vs: seq<GoValue>, i: nat, err: LoadError)
    requires |vs| == |fs| && i < |fs| && FieldStep(e, args, fs[i]) == Stop(err)
    ensures LoadFields(e, args, fs, vs, i) == Updated(vs, Some(err))
  {
  }

  /** `LoadArgs`: refuse anything but a pointer to a struct, leaving it as it
      was; otherwise run the loop over the struct's fields, keeping whatever
      it wrote even when it stops with an error. */
  function LoadArgs(e: ArgLoader, args: map<string, Iface>, c: Dest): (r: Updated<Dest, LoadError>)
    requires WellFormed(c)
    ensures c.NotPtr? ==> r == Updated(c, Some(NotAPointer(c.ty)))
    ensures c.PtrToOther? ==> r == Updated(c, Some(NotAPointerToStruct(TPtr(c.elem))))
    ensures c.PtrToStruct? ==> r.state.PtrToStruct? && r.state.fields == c.fields && WellFormed(r.state)
    ensures c.PtrToStruct? ==>
              forall j :: 0 <= j < |c.fields| && c.fields[j].tags.arg.None? ==> r.state.values[j] == c.values[j]
  {
    match c
    case NotPtr(ty) => Updated(c, Some(NotAPointer(ty)))
    case PtrToOther(elem) => Updated(c, Some(NotAPointerToStruct(TPtr(elem))))
    case PtrToStruct(fs, vs) =>
      var r := LoadFields(e, args, fs, vs, 0);
      Updated(PtrToStruct(fs, r.state), r.err)
  }

  /** The loop body returns an error for this field. */
  predicate Stops(e: ArgLoader, args: map<string, Iface>, f: FieldDesc) {
    FieldStep(e, args, f).Stop?
  }

  /** The value a field holds after its own turn of the loop. */
  function Applied(e: ArgLoader, args: map<string, Iface>, f: FieldDesc, v: GoValue): GoValue {
    var s := FieldStep(e, args, f);
    if s.Write? then s.value else v
  }

  /** Field `k` is the first field from `i` on whose turn returns an error. */
  ghost predicate FirstStopAt(e: ArgLoader, args: map<string, Iface>, fs: seq<FieldDesc>, i: int, k: int) {
    && 0 <= i <= k < |fs|
    && Stops(e, args, fs[k])
    && forall j :: i <= j < k ==> !Stops(e, args, fs[j])
  }

  /** The fold from field `i` on succeeds exactly when no field's turn
      errs, and then every field holds its own turn's value; when it fails,
      some field is the first to err. */
  lemma {:induction false} LoadFieldsSucceeds(e: ArgLoader, args: map<string, Iface>, fs: seq<FieldDesc>,
                                              vs: seq<GoValue>, i: nat)
    requires |vs| == |fs| && i <= |fs|
    ensures var r := LoadFields(e, args, fs, vs, i);
            && (r.err.None? <==> forall j :: i <= j < |fs| ==> !Stops(e, args, fs[j]))
            && (r.err.None? ==> forall j :: i <= j < |fs| ==> r.state[j] == Applied(e, args, fs[j], vs[j]))
            && (r.err.Some? ==> exists k :: FirstStopAt(e, args, fs, i, k))
    decreases |fs| - i
  {
    if i < |fs| {
      var r := LoadFields(e, args, fs, vs, i);
      var s := FieldStep(e, args, fs[i]);
      if s.Stop? {
        assert FirstStopAt(e, args, fs, i, i);
      } else {
        var vs' := if s.Write? then vs[i := s.value] else vs;
        assert r == LoadFields(e, args, fs, vs', i + 1);
        LoadFieldsSucceeds(e, args, fs, vs', i + 1);
        assert r.state[i] == vs'[i] == Applied(e, args, fs[i], vs[i]);
        if r.err.Some? {
          var k :| FirstStopAt(e, args, fs, i + 1, k);
          assert FirstStopAt(e, args, fs, i, k);
        }
      }
    }
  }

  /** When field `k` is the first from `i` on whose turn errs, the fold
      returns that field's error, the fields from `i` up to `k` hold their
      turns' values, and field `k` and all after it are as they were. */
  lemma {:induction false} LoadFieldsFirstStop(e: ArgLoader, args: map<string, Iface>, fs: seq<FieldDesc>,
                                               vs: seq<GoValue>, i: nat, k: nat)
    requires |vs| == |fs| && i <= |fs|
    requires FirstStopAt(e, args, fs, i, k)
    ensures var r := LoadFields(e, args, fs, vs, i);
            && r.err == Some(FieldStep(e, args, fs[k]).err)
            && (forall j :: i <= j < k ==> r.state[j] == Applied(e, args, fs[j], vs[j]))
            && (forall j :: k <= j < |fs| ==> r.state[j] == vs[j])
    decreases |fs| - i
  {
    if i < k {
      var r := LoadFields(e, args, fs, vs, i);
      var s := FieldStep(e, args, fs[i]);
      assert !s.Stop?;
      var vs' := if s.Write? then vs[i := s.value] else vs;
      assert r == LoadFields(e, args, fs, vs', i + 1);
      assert FirstStopAt(e, args, fs, i + 1, k);
      LoadFieldsFirstStop(e, args, fs, vs', i + 1, k);
      assert r.state[i] == vs'[i] == Applied(e, args, fs[i], vs[i]);
    }
  }

  /** `LoadArgs` on a pointer to a struct, field by field: the call succeeds
      exactly when no field's turn errs, and then each field holds its
      turn's value; otherwise it returns the error of the first erring
      field, the fields before it keep what their turns wrote (nothing is
      rolled back), and that field and all after it are untouched. */
  lemma LoadArgsOutcome(e: ArgLoader, args: map<string, Iface>, c: Dest)
    requires WellFormed(c) && c.PtrToStruct?
    ensures var r := LoadArgs(e, args, c);
            var fs := c.fields;
            && (r.err.None? <==> forall j :: 0 <= j < |fs| ==> !Stops(e, args, fs[j]))
            && (r.err.None? ==>
                  forall j :: 0 <= j < |fs| ==> r.state.values[j] == Applied(e, args, fs[j], c.values[j]))
            && (r.err.Some? ==> exists k :: FirstStopAt(e, args, fs, 0, k))
            && (forall k :: FirstStopAt(e, args, fs, 0, k) ==>
                  && r.err == Some(FieldStep(e, args, fs[k]).err)
                  && (forall j :: 0 <= j < k ==> r.state.values[j] == Applied(e, args, fs[j], c.values[j]))
                  && (forall j :: k <= j < |fs| ==> r.state.values[j] == c.values[j]))
  {
    LoadFieldsSucceeds(e, args, c.fields, c.values, 0);
    forall k | FirstStopAt(e, args, c.fields, 0, k)
      ensures var r := LoadArgs(e, args, c);
              && r.err == Some(FieldStep(e, args, c.fields[k]).err)
              && (forall j :: 0 <= j < k ==> r.state.values[j] == Applied(e, args, c.fields[j], c.values[j]))
              && (forall j :: k <= j < |c.fields| ==> r.state.values[j] == c.values[j])
    {
      LoadFieldsFirstStop(e, args, c.fields, c.values, 0, k);
    }
  }

  /** A tagged field whose key is absent and that is not required (no
      `required` tag, or one that parses as false) keeps its value, whatever
      happens to the other fields. */
  lemma OptionalAbsentKept(e: ArgLoader, args: map<string, Iface>, c: Dest, k: int)
    requires WellFormed(c) && c.PtrToStruct? && 0 <= k < |c.fields|
    requires c.fields[k].tags.arg.Some? && c.fields[k].tags.arg.value !in args
    requires c.fields[k].tags.required.None? || ParseBool(c.fields[k].tags.required.value) == Some(false)
    ensures LoadArgs(e, args, c).state.values[k] == c.values[k]
  {
    LoadArgsOutcome(e, args, c);
    var r := LoadArgs(e, args, c);
    assert !Stops(e, args, c.fields[k]);
    if r.err.Some? {
      var m :| FirstStopAt(e, args, c.fields, 0, m);
      assert k != m;
    }
  }

  /** A required field whose key is absent makes `LoadArgs` fail with
      "<key> is required" once every field before it has had its turn
      without error; those earlier fields keep what they were given. */
  lemma RequiredAbsentFails(e: ArgLoader, args: map<string, Iface>, c: Dest, k: int)
    requires WellFormed(c) && c.PtrToStruct? && 0 <= k < |c.fields|
    requires c.fields[k].tags.arg.Some? && c.fields[k].tags.arg.value !in args
    requires c.fields[k].tags.required.Some? && ParseBool(c.fields[k].tags.required.value) == Some(true)
    requires forall j :: 0 <= j < k ==> !Stops(e, args, c.fields[j])
    ensures LoadArgs(e, args, c).err == Some(Required(c.fields[k].tags.arg.value))
    ensures forall j :: 0 <= j < k ==>
              LoadArgs(e, args, c).state.values[j] == Applied(e, args, c.fields[j], c.values[j])
    ensures forall j :: k <= j < |c.fields| ==> LoadArgs(e, args, c).state.values[j] == c.values[j]
  {
    assert FirstStopAt(e, args, c.fields, 0, k);
    LoadArgsOutcome(e, args, c);
  }

  /** Field values whose dynamic types equal the fields' declared types; a
      field of interface type holding a value of another dynamic type, which
      Go allows, falls outside this predicate. */
  ghost predicate WellTyped(fs: seq<FieldDesc>, vs: seq<GoValue>) {
    |vs| == |fs| && forall j :: 0 <= j < |fs| ==> DynamicType(vs[j]) == fs[j].ty
  }

  /** With a valid registry, the fold only writes values of the field's own
      type, as `reflect.Value.Set` demands. */
  lemma {:induction false} LoadFieldsKeepsWellTyped(e: ArgLoader, args: map<string, Iface>,
                                                    fs: seq<FieldDesc>, vs: seq<GoValue>, i: nat)
    requires Valid(e) && WellTyped(fs, vs) && i <= |fs|
    ensures WellTyped(fs, LoadFields(e, args, fs, vs, i).state)
    decreases |fs| - i
  {
    if i < |fs| {
      var s := FieldStep(e, args, fs[i]);
      if s.Write? {
        var w := e.loaderFuncs[fs[i].ty];
        var arg := args[fs[i].tags.arg.value];
        assert w.body(arg).Ok? && w.body(arg).value == s.value;
        assert DynamicType(s.value) == fs[i].ty;
        LoadFieldsKeepsWellTyped(e, args, fs, vs[i := s.value], i + 1);
      } else if s.Keep? {
        LoadFieldsKeepsWellTyped(e, args, fs, vs, i + 1);
      }
    }
  }

  /** `LoadArgs` keeps every field's value of the field's declared type. */
  lemma LoadArgsKeepsWellTyped(e: ArgLoader, args: map<string, Iface>, c: Dest)
    requires Valid(e) && c.PtrToStruct? && WellTyped(c.fields, c.values)
    ensures WellTyped(c.fields, LoadArgs(e, args, c).state.values)
  {
    LoadFieldsKeepsWellTyped(e, args, c.fields, c.values, 0);
  }
}

=== FILE: registry.dfy ===
/** The `ArgLoader` registry (args.go): two maps keyed by a Go type, one to a
    wrapped loader func and one to a GraphQL wire-type, filled by `Register`
    after it has checked the shape of the loader func's signature. */
module Registry {
  import opened GoTypes

  /** A `graphql.Output` value, opaque to the loader. */
  datatype WireType = GqlBoolean | GqlString | GqlInt | GqlFloat | GqlCustom(name: string)

  /** The wire-type handed to `Register`; None is a nil `graphql.Output`. */
  type Wire = Option<WireType>

  /** A non-nil `error` value produced by a loader func. */
  datatype GoError =
    | NotA(kind: string, got: Iface)      // "<value> is not a <kind>"
    | Message(text: string)               // any other error

  /** What one call of a loader func does: return a value with a nil error,
      return a non-nil error, or panic with a description. */
  datatype Outcome = Ok(value: GoValue) | Err(error: GoError) | Panic(description: string)

  /** One result of a func signature: its type, whether that type implements
      `error`, and whether `reflect.Value.IsNil` accepts values of it (pointer,
      interface, map, slice, chan and func kinds). */
  datatype OutParam = OutParam(ty: GoType, implementsError: bool, nilable: bool)

  /** A func value as `Register` sees it: the name `runtime.FuncForPC`
      reports, its parameter types, its results, and its behaviour. */
  datatype Func = Func(name: string, ins: seq<GoType>, outs: seq<OutParam>, body: Iface -> Outcome)

  /** The `interface{}` passed to `Register`: a func, or any other value. */
  datatype Candidate = NotFunc(v: GoValue) | IsFunc(f: Func)

  /** The errors `Register` returns, in the order it checks for them. */
  datatype RegisterError =
    | NotAFunc(v: GoValue)
    | WrongInputCount(fname: string, count: nat)
    | WrongOutputCount(fname: string, count: nat)
    | LastNotError(fname: string, ty: GoType)
    | AlreadyRegistered(ty: GoType, fname: string)

  /** Why a wrapped loader call panicked before the recover turned it into an error. */
  datatype PanicCause =
    | ZeroValueArgument                          // reflect: Call using zero Value argument
    | ArgumentNotAssignable(got: GoType, want: GoType)  // reflect: Call using <got> as type <want>
    | IsNilOnNonNilable(ty: GoType)              // reflect.Value.IsNil on a non-nilable kind
    | Raised(description: string)                // the loader func itself panicked

  /** The error a wrapped loader returns: "<fname> panicked: <cause>", or the
      loader func's own non-nil error. */
  datatype LoaderError = Panicked(fname: string, cause: PanicCause) | Returned(error: GoError)

  /** The closure `Register` stores: what it captured of the validated func. */
  datatype Wrapped = Wrapped(fname: string, param: GoType, result: GoType, errOut: OutParam,
                             body: Iface -> Outcome)

  /** The `ArgLoader` struct. */
  datatype ArgLoader = ArgLoader(loaderFuncs: map<GoType, Wrapped>, gqlTypes: map<GoType, Wire>)

  /** The signature `Register` insists on: one parameter, two results, the
      second implementing `error`. */
  predicate Shaped(f: Func) {
    |f.ins| == 1 && |f.outs| == 2 && f.outs[1].implementsError
  }

  /** Go's type system: a func declared to return T returns values of type T. */
  ghost predicate ReturnsType(body: Iface -> Outcome, t: GoType) {
    forall i :: body(i).Ok? ==> DynamicType(body(i).value) == t
  }

  /** The registry invariant `Empty` establishes and `Register` keeps: both
      maps have the same keys, and the loader stored under a type returns
      values of exactly that dynamic type. A loader whose first result is an
      interface type (which Go lets return values of other dynamic types)
      falls outside this invariant. */
  ghost predicate Valid(e: ArgLoader) {
    && e.loaderFuncs.Keys == e.gqlTypes.Keys
    && forall t :: t in e.loaderFuncs ==>
         e.loaderFuncs[t].result == t && ReturnsType(e.loaderFuncs[t].body, t)
  }

  /** `Empty`: a registry with no loader funcs. */
  function Empty(): (e: ArgLoader)
    ensures Valid(e)
    ensures forall t :: t !in e.loaderFuncs && t !in e.gqlTypes
  {
    ArgLoader(map[], map[])
  }

  /** Whether `reflect.Value.Call` accepts a value of `v`'s dynamic type for a
      parameter of type `param`. Only the empty interface accepts other types. */
  predicate AssignableTo(v: GoValue, param: GoType) {
    DynamicType(v) == param || param == TAny
  }

  /** The closure built at registration time around a validated func. */
  function Wrap(f: Func): (w: Wrapped)
    requires Shaped(f)
    ensures w.fname == f.name && w.result == f.outs[0].ty
    ensures forall i :: Call(w, i).Success? <==> i.Boxed? && AssignableTo(i.v, f.ins[0]) && f.outs[1].nilable && f.body(i).Ok?
    ensures forall i :: Call(w, i).Success? ==> Call(w, i).value == f.body(i).value
    ensures forall i :: Call(w, i).Failure? && Call(w, i).error.Returned? ==> f.body(i) == Err(Call(w, i).error.error)
    ensures forall i: Iface :: i.Nil? ==> Call(w, i) == Failure(Panicked(f.name, ZeroValueArgument))
    ensures forall i: Iface :: i.Boxed? && !AssignableTo(i.v, f.ins[0]) ==>
              Call(w, i) == Failure(Panicked(f.name, ArgumentNotAssignable(DynamicType(i.v), f.ins[0])))
    ensures forall i: Iface :: i.Boxed? && AssignableTo(i.v, f.ins[0]) && f.body(i).Panic? ==>
              Call(w, i) == Failure(Panicked(f.name, Raised(f.body(i).description)))
    ensures forall i: Iface :: i.Boxed? && AssignableTo(i.v, f.ins[0]) && !f.body(i).Panic? && !f.outs[1].nilable ==>
              Call(w, i) == Failure(Panicked(f.name, IsNilOnNonNilable(f.outs[1].ty)))
    ensures forall i: Iface :: i.Boxed? && AssignableTo(i.v, f.ins[0]) && f.outs[1].nilable && f.body(i).Err? ==>
              Call(w, i) == Failure(Returned(f.body(i).error))
  {
    Wrapped(f.name, f.ins[0], f.outs[0].ty, f.outs[1], f.body)
  }

  /** Calling a wrapped loader. Every panic on the way (in `reflect.Value.Call`,
      in the loader func, in `IsNil`) is recovered into a `Panicked` error, a
      non-nil returned error becomes `Returned`, and only a loader func that
      returns a nil error yields a value. */
  function Call(w: Wrapped, i: Iface): (r: Result<GoValue, LoaderError>)
    ensures r.Success? <==> i.Boxed? && AssignableTo(i.v, w.param) && w.errOut.nilable && w.body(i).Ok?
    ensures r.Success? ==> r.value == w.body(i).value
    ensures i.Nil? ==> r == Failure(Panicked(w.fname, ZeroValueArgument))
    ensures i.Boxed? && !AssignableTo(i.v, w.param) ==>
              r == Failure(Panicked(w.fname, ArgumentNotAssignable(DynamicType(i.v), w.param)))
    ensures i.Boxed? && AssignableTo(i.v, w.param) && !w.body(i).Panic? && !w.errOut.nilable ==>
              r == Failure(Panicked(w.fname, IsNilOnNonNilable(w.errOut.ty)))
    ensures i.Boxed? && AssignableTo(i.v, w.param) && w.body(i).Panic? ==>
              r == Failure(Panicked(w.fname, Raised(w.body(i).description)))
    ensures i.Boxed? && AssignableTo(i.v, w.param) && w.errOut.nilable && w.body(i).Err? ==>
              r == Failure(Returned(w.body(i).error))
    ensures r.Failure? && r.error.Returned? ==> w.body(i) == Err(r.error.error)
  {
    if i.Nil? then
      Failure(Panicked(w.fname, ZeroValueArgument))
    else if !AssignableTo(i.v, w.param) then
      Failure(Panicked(w.fname, ArgumentNotAssignable(DynamicType(i.v), w.param)))
    else
      var outcome := w.body(i);
      if outcome.Panic? then
        Failure(Panicked(w.fname, Raised(outcome.description)))
      else if !w.errOut.nilable then
        // `returnvals[1].IsNil()` panics before either result is looked at
        Failure(Panicked(w.fname, IsNilOnNonNilable(w.errOut.ty)))
      else if outcome.Err? then
        Failure(Returned(outcome.error))
      else
        Success(outcome.value)
  }

  /** `Register`: validate the func's signature, refuse a second loader for
      the same result type, and otherwise store the wrapped func and the
      wire-type under that type. On any error both maps are left as they were. */
  function Register(e: ArgLoader, c: Candidate, gqlType: Wire): (r: Updated<ArgLoader, RegisterError>)
    ensures r.err.Some? ==> r.state == e
    ensures r.err.None? <==> c.IsFunc? && Shaped(c.f) && c.f.outs[0].ty !in e.loaderFuncs
    ensures c.NotFunc? ==> r.err == Some(NotAFunc(c.v))
    ensures c.IsFunc? && |c.f.ins| != 1 ==> r.err == Some(WrongInputCount(c.f.name, |c.f.ins|))
    ensures c.IsFunc? && |c.f.ins| == 1 && |c.f.outs| != 2 ==>
              r.err == Some(WrongOutputCount(c.f.name, |c.f.outs|))
    ensures c.IsFunc? && |c.f.ins| == 1 && |c.f.outs| == 2 && !c.f.outs[1].implementsError ==>
              r.err == Some(LastNotError(c.f.name, c.f.outs[1].ty))
    ensures c.IsFunc? && Shaped(c.f) && c.f.outs[0].ty in e.loaderFuncs ==>
              r.err == Some(AlreadyRegistered(c.f.outs[0].ty, c.f.name))
    ensures r.err.None? ==>
              var t := c.f.outs[0].ty;
              && r.state.loaderFuncs.Keys == e.loaderFuncs.Keys + {t}
              && r.state.gqlTypes.Keys == e.gqlTypes.Keys + {t}
              && r.state.loaderFuncs[t] == Wrap(c.f)
              && r.state.gqlTypes[t] == gqlType
              && (forall u :: u in e.loaderFuncs ==> r.state.loaderFuncs[u] == e.loaderFuncs[u])
              && (forall u :: u in e.gqlTypes && u != t ==> r.state.gqlTypes[u] == e.gqlTypes[u])
  {
    match c
    case NotFunc(v) => Updated(e, Some(NotAFunc(v)))
    case IsFunc(f) =>
      if |f.ins| != 1 then
        Updated(e, Some(WrongInputCount(f.name, |f.ins|)))
      else if |f.outs| != 2 then
        Updated(e, Some(WrongOutputCount(f.name, |f.outs|)))
      else if !f.outs[1].implementsError then
        Updated(e, Some(LastNotError(f.name, f.outs[1].ty)))
      else if f.outs[0].ty in e.loaderFuncs then
        Updated(e, Some(AlreadyRegistered(f.outs[0].ty, f.name)))
      else
        var t := f.outs[0].ty;
        Updated(ArgLoader(e.loaderFuncs[t := Wrap(f)], e.gqlTypes[t := gqlType]), None)
  }

  /** On a registry whose two maps share their keys (as every registry built
      from `Empty` by `Register` does), a successful registration grows each
      map by exactly one key. */
  lemma RegisterAddsOneKey(e: ArgLoader, c: Candidate, gqlType: Wire)
    requires e.loaderFuncs.Keys == e.gqlTypes.Keys
    requires Register(e, c, gqlType).err.None?
    ensures |Register(e, c, gqlType).state.loaderFuncs| == |e.loaderFuncs| + 1
    ensures |Register(e, c, gqlType).state.gqlTypes| == |e.gqlTypes| + 1
  {
  }

  /** `Register` keeps the registry invariant, given that the func it is
      handed returns values of its declared result type. */
  lemma RegisterKeepsValid(e: ArgLoader, c: Candidate, gqlType: Wire)
    requires Valid(e)
    requires c.IsFunc? && |c.f.outs| > 0 ==> ReturnsType(c.f.body, c.f.outs[0].ty)
    ensures Valid(Register(e, c, gqlType).state)
  {
  }

  /** A second loader for a type that already has one is refused, and the
      first loader and its wire-type stay registered. */
  lemma DuplicateRejected(e: ArgLoader, f1: Func, g1: Wire, f2: Func, g2: Wire)
    requires Shaped(f1) && Shaped(f2) && f1.outs[0].ty == f2.outs[0].ty
    requires f1.outs[0].ty !in e.loaderFuncs
    ensures var e1 := Register(e, IsFunc(f1), g1).state;
            var r2 := Register(e1, IsFunc(f2), g2);
            && r2.err == Some(AlreadyRegistered(f2.outs[0].ty, f2.name))
            && r2.state == e1
            && r2.state.loaderFuncs[f1.outs[0].ty] == Wrap(f1)
            && r2.state.gqlTypes[f1.outs[0].ty] == g1
  {
  }
}

=== FILE: schema.dfy ===
/** The schema deriver: `SafeArgsConfig` and `ArgsConfig` (args.go) turn the
    tagged fields of a struct type into GraphQL argument configs. */
module Schema {
  import opened GoTypes
  import opened Registry

  /** A `graphql.ArgumentConfig`: the wire-type (None when the field's type
      has no registered wire-type) and the description. */
  datatype ArgConfig = ArgConfig(ty: Wire, description: string)

  /** The error `SafeArgsConfig` returns: "<i> is not a struct". */
  datatype SchemaError = NotAStruct(ty: GoType)

  /** The type whose fields are walked: the element of a pointer, or the type itself. */
  function StructType(i: GoType): GoType {
    if i.TPtr? then i.elem else i
  }

  /** The config one tagged field contributes. */
  function EntryFor(e: ArgLoader, f: FieldDesc): ArgConfig {
    ArgConfig(if f.ty in e.gqlTypes then e.gqlTypes[f.ty] else None, if f.tags.desc.Some? then f.tags.desc.value else "")
  }

  /** Field `j` is the last of `fs` whose `arg` tag names what its own names. */
  ghost predicate LastWithArg(fs: seq<FieldDesc>, j: int) {
    && 0 <= j < |fs|
    && fs[j].tags.arg.Some?
    && forall k :: j < k < |fs| ==> fs[k].tags.arg != fs[j].tags.arg
  }

  /** The loop of `SafeArgsConfig` over the fields in declaration order,
      written as a left fold: each tagged field (over)writes its entry. */
  function Configs(e: ArgLoader, fs: seq<FieldDesc>): (m: map<string, ArgConfig>)
    ensures m.Keys == ArgNames(fs)
    decreases |fs|
  {
    if |fs| == 0 then
      map[]
    else
      var init := fs[..|fs| - 1];
      var f := fs[|fs| - 1];
      var m := Configs(e, init);
      assert ArgNames(fs) == ArgNames(init) + (if f.tags.arg.Some? then {f.tags.arg.value} else {}) by {
        forall a | a in ArgNames(fs)
          ensures a in ArgNames(init) + (if f.tags.arg.Some? then {f.tags.arg.value} else {})
        {
          var j :| 0 <= j < |fs| && fs[j].tags.arg.Some? && fs[j].tags.arg.value == a;
          if j < |fs| - 1 {
            assert init[j] == fs[j];
          }
        }
        forall a | a in ArgNames(init)
          ensures a in ArgNames(fs)
        {
          var j :| 0 <= j < |init| && init[j].tags.arg.Some? && init[j].tags.arg.value == a;
          assert fs[j] == init[j];
        }
      }
      if f.tags.arg.Some? then m[f.tags.arg.value := EntryFor(e, f)] else m
  }

  /** When several fields share an `arg` name, the entry is the last one's. */
  lemma {:induction false} ConfigsLastWins(e: ArgLoader, fs: seq<FieldDesc>, j: int)
    requires LastWithArg(fs, j)
    ensures fs[j].tags.arg.value in Configs(e, fs)
    ensures Configs(e, fs)[fs[j].tags.arg.value] == EntryFor(e, fs[j])
    decreases |fs|
  {
    assert fs[j].tags.arg.value in ArgNames(fs);
    var init := fs[..|fs| - 1];
    if j < |fs| - 1 {
      assert init[j] == fs[j];
      assert LastWithArg(init, j) by {
        forall k | j < k < |init|
          ensures init[k].tags.arg != init[j].tags.arg
        {
          assert init[k] == fs[k];
        }
      }
      ConfigsLastWins(e, init, j);
    }
  }

  /** Every key of the schema is the `arg` name of some field that is the
      last to carry that name. */
  lemma {:induction false} EveryKeyHasLastField(fs: seq<FieldDesc>, a: string)
    requires a in ArgNames(fs)
    ensures exists j :: LastWithArg(fs, j) && fs[j].tags.arg == Some(a)
    decreases |fs|
  {
    var f := fs[|fs| - 1];
    if f.tags.arg == Some(a) {
      assert LastWithArg(fs, |fs| - 1);
    } else {
      var init := fs[..|fs| - 1];
      assert a in ArgNames(init) by {
        var j :| 0 <= j < |fs| && fs[j].tags.arg.Some? && fs[j].tags.arg.value == a;
        assert init[j] == fs[j];
      }
      EveryKeyHasLastField(init, a);
      var j :| LastWithArg(init, j) && init[j].tags.arg == Some(a);
      assert fs[j] == init[j];
      assert LastWithArg(fs, j) by {
        forall k | j < k < |fs|
          ensures fs[k].tags.arg != fs[j].tags.arg
        {
          if k < |fs| - 1 {
            assert init[k] == fs[k];
          }
        }
      }
    }
  }

  /** `SafeArgsConfig`: fails exactly when the input is neither a struct nor
      a pointer to one; otherwise its keys are the `arg` tags of the fields,
      and each key's entry carries the registered wire-type (None if the
      field's type has none) and the `desc` tag ("" if absent) of the last
      field with that name. */
  function SafeArgsConfig(e: ArgLoader, i: GoType): (r: Result<map<string, ArgConfig>, SchemaError>)
    ensures r.Failure? <==> !StructType(i).TStruct?
    ensures r.Failure? ==> r.error == NotAStruct(i)
    ensures r.Success? ==> r.value.Keys == ArgNames(StructType(i).fields)
    ensures r.Success? ==>
              forall j :: LastWithArg(StructType(i).fields, j) ==>
                r.value[StructType(i).fields[j].tags.arg.value] == EntryFor(e, StructType(i).fields[j])
  {
    var st := StructType(i);
    if !st.TStruct? then
      Failure(NotAStruct(i))
    else
      var m := Configs(e, st.fields);
      assert forall j :: LastWithArg(st.fields, j) ==> m[st.fields[j].tags.arg.value] == EntryFor(e, st.fields[j]) by {
        forall j | LastWithArg(st.fields, j)
          ensures m[st.fields[j].tags.arg.value] == EntryFor(e, st.fields[j])
        {
          ConfigsLastWins(e, st.fields, j);
        }
      }
      Success(m)
  }

  /** `ArgsConfig`: the configs of a struct or pointer-to-struct; on any
      other input the source panics, which the precondition excludes. */
  function ArgsConfig(e: ArgLoader, i: GoType): (r: map<string, ArgConfig>)
    requires StructType(i).TStruct?
    ensures SafeArgsConfig(e, i) == Success(r)
  {
    SafeArgsConfig(e, i).value
  }

  /** Fields without an `arg` tag are never read: swapping one untagged
      field for another leaves the schema unchanged. */
  lemma {:induction false} ConfigsIgnoreUntagged(e: ArgLoader, fs: seq<FieldDesc>, j: int, g: FieldDesc)
    requires 0 <= j < |fs|
    requires fs[j].tags.arg.None? && g.tags.arg.None?
    ensures Configs(e, fs[j := g]) == Configs(e, fs)
    decreases |fs|
  {
    if j < |fs| - 1 {
      ConfigsIgnoreUntaggedEarlier(e, fs, j, g);
    } else {
      ConfigsIgnoreUntaggedLast(e, fs, g);
    }
  }

  /** The inductive step of `ConfigsIgnoreUntagged`: the swapped field is
      not the last one, so the last field's update is the same on both sides. */
  lemma {:induction false} ConfigsIgnoreUntaggedEarlier(e: ArgLoader, fs: seq<FieldDesc>, j: int, g: FieldDesc)
    requires 0 <= j < |fs| - 1
    requires fs[j].tags.arg.None? && g.tags.arg.None?
    ensures Configs(e, fs[j := g]) == Configs(e, fs)
    decreases |fs|, 0
  {
    var gs := fs[j := g];
    var init := fs[..|fs| - 1];
    assert gs[..|gs| - 1] == init[j := g];
    assert gs[|gs| - 1] == fs[|fs| - 1];
    ConfigsIgnoreUntagged(e, init, j, g);
    ConfigsSnoc(e, gs);
    ConfigsSnoc(e, fs);
  }

  /** One turn of the fold: the last field's update applied to the configs of the others. */
  lemma ConfigsSnoc(e: ArgLoader, fs: seq<FieldDesc>)
    requires 0 < |fs|
    ensures var f := fs[|fs| - 1];
            Configs(e, fs) == (if f.tags.arg.Some? then Configs(e, fs[..|fs| - 1])[f.tags.arg.value := EntryFor(e, f)]
                               else Configs(e, fs[..|fs| - 1]))
  {
  }

  /** The base case of `ConfigsIgnoreUntagged`: an untagged last field
      leaves the fold's result as it was. */
  lemma ConfigsIgnoreUntaggedLast(e: ArgLoader, fs: seq<FieldDesc>, g: FieldDesc)
    requires 0 < |fs|
    requires fs[|fs| - 1].tags.arg.None? && g.tags.arg.None?
    ensures Configs(e, fs[|fs| - 1 := g]) == Configs(e, fs)
  {
    var gs := fs[|fs| - 1 := g];
    assert gs[..|gs| - 1] == fs[..|fs| - 1];
  }
}

=== FILE: strconv.dfy ===
/** The one piece of Go's `strconv` package the loader relies on: parsing the
    value of a `required` tag as a boolean. */
module StrConv {
  import opened GoTypes

  /** The spellings `strconv.ParseBool` reads as true. */
  const TrueSpellings: set<string> := {"1", "t", "T", "TRUE", "true", "True"}

  /** The spellings `strconv.ParseBool` reads as false. */
  const FalseSpellings: set<string> := {"0", "f", "F", "FALSE", "false", "False"}

  /** `strconv.ParseBool`: None stands for its syntax error. The comparison is
      exact, so other capitalisations ("tRUE") and padded forms (" true") fail. */
  function ParseBool(s: string): (r: Option<bool>)
    ensures r == Some(true) <==> s in TrueSpellings
    ensures r == Some(false) <==> s in FalseSpellings
    ensures r == None <==> s !in TrueSpellings + FalseSpellings
  {
    if s == "1" || s == "t" || s == "T" || s == "true" || s == "TRUE" || s == "True" then
      Some(true)
    else if s == "0" || s == "f" || s == "F" || s == "false" || s == "FALSE" || s == "False" then
      Some(false)
    else
      None
  }
}
